=== FILE: README.md ===
# ArduinoUserInterface — a Dafny model of the UI engine

This project models the event-driven core of the ArduinoUserInterface library.
The library is a four-button (Select, Back, Up, Down) menu and value-editor front
end for a small monochrome LCD. The model covers four sequential pieces, each
written as a pure step function over immutable state, and proves what the
library promises about them:

- **Buttons** (`buttons.dfy`) — the debounce and auto-repeat state machine of
  `getButtonEvent`. One call takes the sampled button and the clock reading and
  makes one transition of the six-state machine. It returns at most one event:
  Pushed, Repeat or Released. Over whole traces of samples the model proves
  three properties. The event stream is well bracketed: two Pushed events
  always have a Released between them. Repeats are spaced at least 800 ms after
  the push and at least 130 ms apart. A reading that differs from the first
  one when the 30 ms debounce period has run never becomes a press.
- **Menu** (`menu.dfy`) — the event `switch` of `displayAndExecuteMenu`,
  together with `selectAndDrawMenu`, `executeMenuItem`, the page loop of
  `drawMenu` and the toggle query in `drawMenuItem`.
  - Menu tables live in an arena and refer to each other by index.
  - The cursor is (table, selected entry, top line).
  - Each event gives a new cursor and an observable outcome: page redrawn,
    menu shown, command run, toggle advanced, or menu exited.
  - The cursor invariant `1 <= top <= sel < top + 4`, with `sel` a real item,
    is preserved by every event.
- **Slider** (`slider.dfy`) — the event handling of `displaySlider` (staircase
  acceleration, clamping, callbacks) and the needle length of `drawSlider`.
  The value stays in `[min, max]` after every event, and the needle stays
  within its 77-pixel frame.
- **Config** (`config.dfy`) — the EEPROM configuration values
  (`write/readConfigurationByte/Int/Long`) over a byte map where an unwritten
  address reads 0xFF. The model proves the round trip for every width, the
  default returned while the marker byte is 0xFF, and which bytes a write may
  touch.

`interface.dfy` holds the header's public constants: menu item type codes,
button ids, event codes, slider outcome codes, the page size and the LCD
width. Each one comes with a decoder and a proof that the codes are distinct.
`ints.dfy` gives the ranges of the target's 16-bit `int` and 32-bit `long`, and
`wrappers.dfy` defines `Option`.

Three behaviours of the code are worth stating plainly:

- The page scrolls only when the selection leaves the four-line window, so in
  a menu of four items or fewer the top line never moves (`Menu.MoveDown`).
- The "Back" label is hidden for any main-menu header with a non-NULL link,
  although the comment at `src/ArduinoUserInterface.cpp:329-330` speaks of a
  main menu that "links back to itself" (`Menu.MenuButtonBar`).
- The needle length truncates its quotient and divides by `max - min`
  without a guard, so `Slider.NeedleLength` truncates and requires
  `max > min`.

## Model

| member | source | states |
|---|---|---|
| Interface.ItemTypeCode | src/ArduinoUserInterface.h:56-61 | each menu item type has a code in 0..5 that decodes back to it |
| Interface.ItemTypeOfCode | src/ArduinoUserInterface.h:56-61 | exactly the codes 0..5 name a menu item type |
| Interface.ItemTypeCodeInjective | src/ArduinoUserInterface.h:56-61 | two item types share a code iff they are the same type, so the dispatch on the type byte is unambiguous |
| Interface.ButtonCode | src/ArduinoUserInterface.h:73-77 | button ids are 0..4, 0 is exactly "no button", and each id decodes back to its button |
| Interface.ButtonOfCode | src/ArduinoUserInterface.h:73-77 | exactly the codes 0..4 name a button |
| Interface.PhaseCode | src/ArduinoUserInterface.h:84-86 | Pushed, Released and Repeat are 0x40, 0x80 and 0xC0 and decode back to their phase |
| Interface.PhaseOfCode | src/ArduinoUserInterface.h:84-86 | exactly 0x40, 0x80 and 0xC0 name a phase |
| Interface.EventCode | src/ArduinoUserInterface.h:83-86 | an event byte fits in a byte, and for events that name a real button it is 0 exactly when there is no event |
| Interface.DecodeEvent | src/ArduinoUserInterface.h:73-86 | every byte that decodes yields a valid event whose byte is that byte |
| Interface.EventCodeRoundTrip | src/ArduinoUserInterface.h:73-86 | phase and button are recovered from every valid event's byte |
| Interface.EventCodeInjective | src/ArduinoUserInterface.h:73-86 | two valid events share a byte iff they are equal |
| Interface.SliderActionCode | src/ArduinoUserInterface.h:92-94 | Changed, Set and Canceled are 1..3 and decode back to their outcome |
| Interface.SliderActionOfCode | src/ArduinoUserInterface.h:92-94 | exactly the codes 1..3 name a slider outcome |
| Interface.SliderActionCodeInjective | src/ArduinoUserInterface.h:92-94 | two slider outcomes share a code iff they are the same |
| Buttons.GetButtonEvent | src/ArduinoUserInterface.cpp:976-1145 | idle with nothing pressed does nothing; a new reading is remembered with its time; Pushed iff the same button is still down once 30 ms have passed; Repeat iff the button is still down 800 ms after the push or 130 ms after the last repeat, and the timer restarts; while the same button is held before that, state and timer stay unchanged; any other reading while held waits for all buttons up, silently; during the 30 ms after the first none reading every poll leaves state and timer unchanged; Released iff the reading is none at a poll at least 30 ms after the first none reading, and the machine is idle again; a reading at that poll goes back to waiting; events always name the tracked button |
| Buttons.RunBracketed | src/ArduinoUserInterface.cpp:999-1144 | over any sample sequence the events alternate: a Pushed only when no press is open, Repeat and Released only for the open press |
| Buttons.PushesSeparatedByRelease | src/ArduinoUserInterface.cpp:1019-1140 | from power-up, any two Pushed events of a trace have a Released between them |
| Buttons.RunRepeatsSpaced | src/ArduinoUserInterface.cpp:1045-1096 | in any trace the first Repeat comes at least 800 ms after its Pushed and each later Repeat at least 130 ms after the previous one |
| Buttons.ShortHoldIsQuiet | src/ArduinoUserInterface.cpp:1045-1072 | holding the pushed button for less than the repeat delay produces no event and leaves the state unchanged |
| Buttons.ReleaseWaitIsQuiet | src/ArduinoUserInterface.cpp:1122-1125 | over any polls that come less than 30 ms after the first none reading, release confirmation produces no event and keeps its state and timer, so no Released is reported before the 30 ms have run |
| Buttons.BounceIsIgnored | src/ArduinoUserInterface.cpp:1019-1038 | a reading that is gone once the debounce period has run returns the machine to idle without any event |
| Menu.DrawMenuItem | src/ArduinoUserInterface.cpp:376-482 | the row shows entry `idx`'s text on line `line`, highlighted iff it is the selection; a sub-menu item carries the arrow, a command nothing, and a toggle's state is fetched with the change flag off |
| Menu.DrawLines | src/ArduinoUserInterface.cpp:350-367 | the page loop draws consecutive entries on consecutive lines until four lines are used or the sentinel is reached, and never draws the sentinel |
| Menu.DrawMenu | src/ArduinoUserInterface.cpp:350-367 | exactly as many rows as fit: four, or the items left from `top` if fewer; entry `top + k` on line `k`, only items drawn, and the selection highlighted when it is on the page and nothing else |
| Menu.MenuButtonBar | src/ArduinoUserInterface.cpp:332-340 | the left label is always "Select"; the right label is empty iff the header is a main header with a link, otherwise "Back" |
| Menu.SelectAndDrawMenu | src/ArduinoUserInterface.cpp:309-341 | the new cursor selects the first item on the top line, satisfies the cursor invariant; the page is the table drawn from entry 1 with the first row highlighted, and the button bar is the table's |
| Menu.MoveDown | src/ArduinoUserInterface.cpp:200-223 | Down is a no-op on the last item; otherwise the next item is selected, the top line moves by one exactly when the selection leaves the window, and the page is redrawn at the new cursor; the cursor invariant is preserved |
| Menu.MoveUp | src/ArduinoUserInterface.cpp:228-251 | Up is a no-op on the first item; otherwise the previous item is selected, the top line moves back exactly when the selection was on it, and the page is redrawn at the new cursor; the cursor invariant is preserved |
| Menu.ExecuteMenuItem | src/ArduinoUserInterface.cpp:489-535 | a sub-menu item enters its child and shows it as `SelectAndDrawMenu` does, page and button bar included; a command runs its action and then shows its own table the same way; a toggle advances with the change flag on, keeps the cursor and redraws only line `sel - top` |
| Menu.GoBack | src/ArduinoUserInterface.cpp:266-297 | a sub-menu returns to its parent and shows it as `SelectAndDrawMenu` does, page and button bar included; the menu exits iff the header is a main header without a link; a main header with a link changes nothing |
| Menu.HandleMenuEvent | src/ArduinoUserInterface.cpp:195-299 | the cursor invariant holds after every event; the menu exits iff Back is pushed on a main header without a link; Down and Up (Pushed or Repeat) move the selection, Select Pushed runs the entry and Back Pushed goes back; commands and toggles run only on Select Pushed; Released, Select/Back Repeat and no event change nothing |
| Menu.SelectionVisible | src/ArduinoUserInterface.cpp:350-367 | under the cursor invariant the selected entry is always on the drawn page, highlighted, on line `sel - top` |
| Menu.HiddenBackDoesNothing | src/ArduinoUserInterface.cpp:266-340 | the "Back" label is missing exactly when pushing Back leaves the menu unchanged |
| Menu.UpUndoesDown | src/ArduinoUserInterface.cpp:200-251 | an Up after a Down that moved selects the original entry again |
| Menu.RunMenu | src/ArduinoUserInterface.cpp:174-300 | the menu loop keeps the cursor invariant, handles every event until it exits, and its last outcome is the exit exactly when it exits; no outcome follows the exit, and the event that ends it is Back pushed on a main menu without a link |
| Menu.NoDismissibleTableNeverExits | src/ArduinoUserInterface.cpp:266-297 | if no table is a main menu without a link, the menu loop never returns, whatever buttons are pressed |
| Menu.BackExitsDismissibleRoot | src/ArduinoUserInterface.cpp:266-297 | on a main menu without a link, a single Back press ends the loop with the cursor where it was |
| Slider.StepSize | src/ArduinoUserInterface.cpp:610 | the step size is at least `step`, equals `step` iff fewer than 16 ticks have passed, and at least doubles from the 16th tick on |
| Slider.StepSizeStaircase | src/ArduinoUserInterface.cpp:610 | every 16 further repeat ticks add exactly one `step` to the step size |
| Slider.Lower | src/ArduinoUserInterface.cpp:605-623 | the value drops by the step size or stops at `min`, never below; the callback reports Changed with the new value iff the value changed |
| Slider.Raise | src/ArduinoUserInterface.cpp:628-646 | the value rises by the step size or stops at `max`, never above; the callback reports Changed with the new value iff the value changed |
| Slider.HandleSliderEvent | src/ArduinoUserInterface.cpp:600-665 | the value stays in `[min, max]`; it changes iff a Changed callback reports the new value; a push restarts the counter at 1 and a repeat increments it modulo 2^16; Down and Up step by the step size and clamp exactly as the two arms do, so Down never raises and Up never lowers; Select reports Set(value) and Back reports Canceled(0), and exactly these end the session; all else, the Select and Back repeats included, is ignored |
| Slider.RunSlider | src/ArduinoUserInterface.cpp:592-667 | over any event sequence the value stays in range, every Changed value is in `[min, max]`, the session ends exactly with a Set or Canceled callback, which only the last callback can be, and it ends iff some event is Select or Back pushed |
| Slider.HeldDownAccelerates | src/ArduinoUserInterface.cpp:605-623 | holding Down from 50 on a 0..100 slider of step 1 for a push and 20 repeats reaches 23: the sixteenth tick doubles the step |
| Slider.HeldDownStopsAtMin | src/ArduinoUserInterface.cpp:605-623 | however many repeats arrive, the value never passes `min`, and a slider already at `min` reports no callback |
| Slider.NeedleLength | src/ArduinoUserInterface.cpp:699-700 | the needle is 0..77 pixels, 77 being the display's last column minus two 3-pixel paddings; it is 0 at `min` and 77 at `max` |
| Slider.NeedleMonotone | src/ArduinoUserInterface.cpp:699-700 | a larger value never draws a shorter needle |
| Slider.MoveAsWritten | src/ArduinoUserInterface.cpp:605-646 | the new value in the source's 16-bit arithmetic; when the sum fits it is the clamped value |
| Slider.MoveAsWrittenAgrees | src/ArduinoUserInterface.cpp:605-646 | when `value ± step` fits in 16 bits, the source's arithmetic and the model agree on a push |
| Slider.MoveAsWrittenLeavesRange | src/ArduinoUserInterface.cpp:628-637 | on 0..32767 with step 1000 at 32000, Up yields -32536 as written, below `min`; the model yields `max` |
| Slider.NeedleLengthAsWritten | src/ArduinoUserInterface.cpp:699-700 | the needle in the source's arithmetic is a byte, equal to the model's whenever `max - min` fits in 16 bits |
| Slider.NeedleLengthAsWrittenOverruns | src/ArduinoUserInterface.cpp:699-700 | on -100..32700 at the maximum the source draws a 179-pixel needle; the model draws 77 |
| Config.MarkWritten | src/ArduinoUserInterface.cpp:2010-2011 | the marker becomes exactly 0 if it was 0xFF and is otherwise untouched; no other byte changes |
| Config.WriteConfigurationByte | src/ArduinoUserInterface.cpp:2008-2014 | the marker changes only from 0xFF to 0, the value is stored after it, and no byte outside the two is touched |
| Config.ReadConfigurationByte | src/ArduinoUserInterface.cpp:2026-2032 | the default while the marker is 0xFF, the stored byte otherwise |
| Config.WriteConfigurationInt | src/ArduinoUserInterface.cpp:2042-2049 | the marker changes only from 0xFF to 0, the low then high byte of the 16-bit pattern follow, and no byte outside the three is touched |
| Config.ReadConfigurationInt | src/ArduinoUserInterface.cpp:2061-2072 | the default while the marker is 0xFF, otherwise the 16-bit int whose pattern is the two stored bytes, low first |
| Config.WriteConfigurationLong | src/ArduinoUserInterface.cpp:2082-2097 | the marker changes only from 0xFF to 0, bytes 0..3 of the value follow low first, and no byte outside the five is touched |
| Config.ReadConfigurationLong | src/ArduinoUserInterface.cpp:2109-2122 | the default while the marker is 0xFF, otherwise the 32-bit long whose pattern is the four stored bytes, low first |
| Config.ByteRoundTrip | src/ArduinoUserInterface.cpp:2008-2032 | reading back a written byte gives that byte |
| Config.IntRoundTrip | src/ArduinoUserInterface.cpp:2042-2072 | reading back a written 16-bit int gives that int, negative values included |
| Config.LongBytesReassemble | src/ArduinoUserInterface.cpp:2087-2119 | the four bytes the writer extracts by arithmetic shifts reassemble to the value modulo 2^32 |
| Config.LongRoundTrip | src/ArduinoUserInterface.cpp:2082-2122 | reading back a written 32-bit long gives that long, negative values included |
| Config.NeverWrittenReadsDefault | src/ArduinoUserInterface.cpp:2026-2122 | while the marker is 0xFF every read returns its default, whatever the width |
| Config.DisjointWritesIndependent | src/ArduinoUserInterface.cpp:2042-2097 | writing a long leaves an int stored in non-overlapping bytes intact |

## Left out

- The LCD driver (serial protocol, font, string printing and centering, `drawButtonBar` geometry, `clearDisplaySpace`). It is pin-level output. Drawing is modelled by what it shows: rows, highlighting, trailers and button-bar labels.
- `drawMenuItem`'s pixel layout (fill characters, the sub-menu arrow glyph, the toggle text's width). Only which entry goes on which line, its highlighting and the toggle query are modelled.
- `readButtonsToGetButtonID` and `analogRead`: the resistor-ladder calibration is hardware. The sampled button is a parameter of `Buttons.GetButtonEvent`.
- `displayFloatSlider` and `drawFloatSlider`: they use floating point, which the model does not cover.
- The `while(true)` loops never end by themselves. `Menu.RunMenu` and `Slider.RunSlider` handle a finite sequence of events instead.
- User functions and callbacks are opaque. A command or toggle is an action number, and a call is a recorded outcome. The toggle's state text, and commands that open menus or sliders of their own, are not modelled.
- Buttons.GetButtonEvent: the clock is an unbounded natural number, so the `millis()` wrap-around after about 49 days is not modelled. The source's `currentTime < start + period` tests are not wrap-safe.
- Menu.CursorOk: `sel` and `top` are bytes in the source. The model's indices are unbounded, so tables of 256 or more entries, which would wrap in the source, are not modelled.
- Menu.WellFormedTable requires at least one item. With only a header and the sentinel, the source selects the sentinel and reads past the table on Down.
- Menu.WellFormedArena requires every followed link to name a table. The source follows whatever pointer the table holds.
- Slider.HandleSliderEvent requires `step > 0` and `min <= value <= max`. The source does not check the initial value; keeping it in range is the caller's duty.
- Slider.HandleSliderEvent computes `value ± stepSize` without 16-bit overflow. The overflowing arithmetic as written is `Slider.MoveAsWritten`, listed under Findings.
- Slider.StepSize is unbounded. The source multiplies in 16-bit `unsigned int`, which wraps once `step * (count / 16 + 1)` reaches 2^16.
- Slider.NeedleLength requires `max > min`, because the source divides by `max - min` without a guard.
- The slider's numeric readout and frame drawing are not modelled; only the needle length is.
- Config: EEPROM addresses are unbounded integers. The device's finite EEPROM size, and what `EEPROM.write` does past it, are not modelled.

## Findings

| source | as written | input that shows it | evidently intended | confidence | as-written member | corrected member |
|---|---|---|---|---|---|---|
| src/ArduinoUserInterface.cpp:628-637 | `newSliderValue = sliderDisplayValue + stepSize` is computed in 16-bit `int`, and only the `> max` comparison follows | min 0, max 32767, step 1000, value 32000, Up pushed: the sum wraps to -32536, is not greater than `max`, and so becomes the value | the value is clamped to `max` (32767) | medium; not executed | Slider.MoveAsWrittenLeavesRange | Slider.HandleSliderEvent |
| src/ArduinoUserInterface.cpp:699-700 | `(long)(max - min)` subtracts in 16-bit `int` before widening | min -100, max 32700, value 32700: `max - min` wraps to -32736, the quotient is -77, and the byte cast gives a 179-pixel needle | a needle of at most 77 pixels (77 at `max`) | medium; not executed | Slider.NeedleLengthAsWrittenOverruns | Slider.NeedleLength |

=== FILE: buttons.dfy ===
/**
  The button debounce and auto-repeat state machine (`getButtonEvent`).

  One call samples the button that is down (or none) at time `now` and makes
  exactly one transition of a six-state machine, returning at most one event.
  The sampled button and the millisecond clock are parameters; the clock is a
  natural number that never wraps around.
*/
module Buttons {
  import opened Wrappers
  import opened Interface

  const ButtonDebouncePeriod: nat := 30
  const ButtonAutoRepeatDelay: nat := 800
  const ButtonAutoRepeatRate: nat := 130

  datatype ButtonState =
    | WaitingForButtonDown
    | ConfirmButtonDown
    | WaitingForButtonUp
    | WaitingForButtonUpAfterAutoRepeat
    | WaitingForAllButtonsUp
    | ConfirmAllButtonsUp

  /** The remembered state: FSM state, the button being tracked, the timer start. */
  datatype Debouncer = Debouncer(state: ButtonState, id: ButtonId, start: nat)

  /** After initialisation only the state is set; the remembered id reads as none. */
  const Initial := Debouncer(WaitingForButtonDown, NoButton, 0)

  /** Outside the idle state a real button is always being tracked. */
  predicate Inv(d: Debouncer) {
    d.state != WaitingForButtonDown ==> d.id != NoButton
  }

  /** A press is "open" from its Pushed event until its Released event. */
  predicate Held(d: Debouncer) {
    d.state in {WaitingForButtonUp, WaitingForButtonUpAfterAutoRepeat,
                WaitingForAllButtonsUp, ConfirmAllButtonsUp}
  }

  datatype Step = Step(next: Debouncer, event: ButtonEvent)

  /** One poll of the buttons. */
  function GetButtonEvent(d: Debouncer, sample: ButtonId, now: nat): (r: Step)
    // the machine keeps tracking a real button and reports only real buttons
    ensures Inv(d) ==> Inv(r.next) && ValidEvent(r.event)
    // idle with nothing pressed: nothing happens at all
    ensures d.state == WaitingForButtonDown && sample == NoButton ==> r == Step(d, NoEvent)
    // idle with a button down: remember it and when it was seen
    ensures d.state == WaitingForButtonDown && sample != NoButton ==>
              r == Step(Debouncer(ConfirmButtonDown, sample, now), NoEvent)
    // debounce: nothing is decided before the period has run
    ensures d.state == ConfirmButtonDown && now < d.start + ButtonDebouncePeriod ==> r == Step(d, NoEvent)
    // Pushed exactly when the same button is still down once the period has run
    ensures r.event.ButtonAction? && r.event.phase == Pushed <==>
              d.state == ConfirmButtonDown && now >= d.start + ButtonDebouncePeriod && sample == d.id
    ensures r.event.ButtonAction? && r.event.phase == Pushed ==>
              r.event.button == d.id && r.next == Debouncer(WaitingForButtonUp, d.id, now)
    // a different reading once the period has run is noise: back to idle silently
    ensures d.state == ConfirmButtonDown && now >= d.start + ButtonDebouncePeriod && sample != d.id ==>
              r.event == NoEvent && r.next.state == WaitingForButtonDown
    // auto-repeat: 800 ms after the push, then every 130 ms, while the same button stays down
    ensures r.event.ButtonAction? && r.event.phase == Repeat <==>
              sample == d.id &&
              ((d.state == WaitingForButtonUp && now >= d.start + ButtonAutoRepeatDelay) ||
               (d.state == WaitingForButtonUpAfterAutoRepeat && now >= d.start + ButtonAutoRepeatRate))
    ensures r.event.ButtonAction? && r.event.phase == Repeat ==>
              r.event.button == d.id && r.next == Debouncer(WaitingForButtonUpAfterAutoRepeat, d.id, now)
    // while the same button is held and its wait has not run out, nothing changes
    ensures d.state == WaitingForButtonUp && sample == d.id && now < d.start + ButtonAutoRepeatDelay ==>
              r == Step(d, NoEvent)
    ensures d.state == WaitingForButtonUpAfterAutoRepeat && sample == d.id && now < d.start + ButtonAutoRepeatRate ==>
              r == Step(d, NoEvent)
    // any other reading while held (none included) waits for all buttons up, silently
    ensures d.state in {WaitingForButtonUp, WaitingForButtonUpAfterAutoRepeat} && sample != d.id ==>
              r == Step(d.(state := WaitingForAllButtonsUp), NoEvent)
    // release confirmation starts the first time nothing is down
    ensures d.state == WaitingForAllButtonsUp ==>
              r.event == NoEvent &&
              r.next == (if sample == NoButton then Debouncer(ConfirmAllButtonsUp, d.id, now) else d)
    // Released exactly when nothing has been down for the debounce period
    ensures r.event.ButtonAction? && r.event.phase == Released <==>
              d.state == ConfirmAllButtonsUp && now >= d.start + ButtonDebouncePeriod && sample == NoButton
    ensures r.event.ButtonAction? && r.event.phase == Released ==>
              r.event.button == d.id && r.next.state == WaitingForButtonDown
    // release confirmation ignores every reading until the debounce period has run
    ensures d.state == ConfirmAllButtonsUp && now < d.start + ButtonDebouncePeriod ==> r == Step(d, NoEvent)
    // a press during release confirmation goes back to waiting for all buttons up
    ensures d.state == ConfirmAllButtonsUp && sample != NoButton && now >= d.start + ButtonDebouncePeriod ==>
              r == Step(d.(state := WaitingForAllButtonsUp), NoEvent)
    // the tracked button only changes when a new press starts from idle
    ensures d.state != WaitingForButtonDown ==> r.next.id == d.id
  {
    if d.state == WaitingForButtonDown && sample == NoButton then
      Step(d, NoEvent)
    else
      match d.state
      case WaitingForButtonDown =>
        Step(Debouncer(ConfirmButtonDown, sample, now), NoEvent)
      case ConfirmButtonDown =>
        if now < d.start + ButtonDebouncePeriod then Step(d, NoEvent)
        else if sample != d.id then Step(d.(state := WaitingForButtonDown), NoEvent)
        else Step(Debouncer(WaitingForButtonUp, d.id, now), ButtonAction(Pushed, d.id))
      case WaitingForButtonUp =>
        if sample != d.id then Step(d.(state := WaitingForAllButtonsUp), NoEvent)
        else if now < d.start + ButtonAutoRepeatDelay then Step(d, NoEvent)
        else Step(Debouncer(WaitingForButtonUpAfterAutoRepeat, d.id, now), ButtonAction(Repeat, d.id))
      case WaitingForButtonUpAfterAutoRepeat =>
        if sample != d.id then Step(d.(state := WaitingForAllButtonsUp), NoEvent)
        else if now < d.start + ButtonAutoRepeatRate then Step(d, NoEvent)
        else Step(d.(start := now), ButtonAction(Repeat, d.id))
      case WaitingForAllButtonsUp =>
        if sample != NoButton then Step(d, NoEvent)
        else Step(Debouncer(ConfirmAllButtonsUp, d.id, now), NoEvent)
      case ConfirmAllButtonsUp =>
        if now < d.start + ButtonDebouncePeriod then Step(d, NoEvent)
        else if sample != NoButton then Step(d.(state := WaitingForAllButtonsUp), NoEvent)
        else Step(d.(state := WaitingForButtonDown), ButtonAction(Released, d.id))
  }

  // ---------------------------------------------------------------------------
  // Traces: the machine polled over a sequence of samples
  // ---------------------------------------------------------------------------

  /** One poll's input: the sampled button and the clock reading. */
  datatype Sample = Sample(button: ButtonId, time: nat)

  datatype Trace = Trace(last: Debouncer, events: seq<ButtonEvent>)

  /** Polls the machine once per sample, collecting the event of each poll. */
  function Run(d: Debouncer, samples: seq<Sample>): (r: Trace)
    ensures |r.events| == |samples|
    decreases |samples|
  {
    if samples == [] then Trace(d, [])
    else
      var s := GetButtonEvent(d, samples[0].button, samples[0].time);
      var rest := Run(s.next, samples[1..]);
      Trace(rest.last, [s.event] + rest.events)
  }

  /**
    The event stream is well bracketed: starting with the open press `open`,
    a Pushed only comes when no press is open and opens one, Repeat and
    Released only name the open press, and Released closes it.
  */
  predicate Bracketed(events: seq<ButtonEvent>, open: Option<ButtonId>)
    decreases |events|
  {
    if events == [] then true
    else
      match events[0]
      case NoEvent => Bracketed(events[1..], open)
      case ButtonAction(p, b) =>
        match p
        case Pushed => open == None && b != NoButton && Bracketed(events[1..], Some(b))
        case Repeat => open == Some(b) && Bracketed(events[1..], open)
        case Released => open == Some(b) && Bracketed(events[1..], None)
  }

  function OpenPress(d: Debouncer): Option<ButtonId> {
    if Held(d) then Some(d.id) else None
  }

  /** Every run of the machine produces a well-bracketed event stream. */
  lemma {:induction false} RunBracketed(d: Debouncer, samples: seq<Sample>)
    requires Inv(d)
    ensures Bracketed(Run(d, samples).events, OpenPress(d))
    decreases |samples|
  {
    if samples != [] {
      var s := GetButtonEvent(d, samples[0].button, samples[0].time);
      RunBracketed(s.next, samples[1..]);
      assert Run(d, samples).events[1..] == Run(s.next, samples[1..]).events;
      match s.event
      case NoEvent =>
        assert OpenPress(s.next) == OpenPress(d);
      case ButtonAction(p, b) =>
    }
  }

  predicate IsPushed(e: ButtonEvent) {
    e.ButtonAction? && e.phase == Pushed
  }

  predicate IsReleased(e: ButtonEvent) {
    e.ButtonAction? && e.phase == Released
  }

  /** With a press open, a Released comes before any further Pushed. */
  lemma {:induction false} OpenPressReleasedBeforePush(events: seq<ButtonEvent>, b: ButtonId, j: nat)
    requires Bracketed(events, Some(b))
    requires j < |events| && IsPushed(events[j])
    ensures exists k :: 0 <= k < j && IsReleased(events[k])
    decreases j
  {
    assert j != 0;
    if IsReleased(events[0]) {
    } else {
      OpenPressReleasedBeforePush(events[1..], b, j - 1);
      var k :| 0 <= k < j - 1 && IsReleased(events[1..][k]);
      assert IsReleased(events[k + 1]);
    }
  }

  /** In a well-bracketed stream any two Pushed events have a Released between them. */
  lemma {:induction false} BracketedSeparatesPushes(events: seq<ButtonEvent>, open: Option<ButtonId>, i: nat, j: nat)
    requires Bracketed(events, open)
    requires i < j < |events| && IsPushed(events[i]) && IsPushed(events[j])
    ensures exists k :: i < k < j && IsReleased(events[k])
    decreases i
  {
    if i == 0 {
      var b := events[0].button;
      OpenPressReleasedBeforePush(events[1..], b, j - 1);
      var k :| 0 <= k < j - 1 && IsReleased(events[1..][k]);
      assert IsReleased(events[k + 1]);
    } else {
      var open' := match events[0]
        case NoEvent => open
        case ButtonAction(p, b) =>
          match p
          case Pushed => Some(b)
          case Repeat => open
          case Released => None;
      assert Bracketed(events[1..], open');
      BracketedSeparatesPushes(events[1..], open', i - 1, j - 1);
      var k :| i - 1 < k < j - 1 && IsReleased(events[1..][k]);
      assert IsReleased(events[k + 1]);
    }
  }

  /** Any two Pushed events of the stream have a Released between them. */
  predicate PushesSeparated(events: seq<ButtonEvent>) {
    forall i, j :: 0 <= i < j < |events| && IsPushed(events[i]) && IsPushed(events[j]) ==>
      exists k :: i < k < j && IsReleased(events[k])
  }

  /** From power-up, two Pushed events are always separated by a Released. */
  lemma {:induction false} PushesSeparatedByRelease(samples: seq<Sample>)
    ensures PushesSeparated(Run(Initial, samples).events)
  {
    var events := Run(Initial, samples).events;
    RunBracketed(Initial, samples);
    forall i, j | 0 <= i < j < |events| && IsPushed(events[i]) && IsPushed(events[j])
      ensures exists k :: i < k < j && IsReleased(events[k])
    {
      BracketedSeparatesPushes(events, None, i, j);
    }
  }

  /**
    Repeat timing over a stream of timestamped events: `last` is the time of
    the latest Pushed or Repeat and `gap` the wait owed before the next
    Repeat (the delay after a Pushed, the rate after a Repeat).
  */
  predicate RepeatsSpaced(events: seq<ButtonEvent>, times: seq<nat>, last: nat, gap: nat)
    requires |events| == |times|
    decreases |events|
  {
    if events == [] then true
    else
      match events[0]
      case ButtonAction(Pushed, _) => RepeatsSpaced(events[1..], times[1..], times[0], ButtonAutoRepeatDelay)
      case ButtonAction(Repeat, _) =>
        times[0] >= last + gap && RepeatsSpaced(events[1..], times[1..], times[0], ButtonAutoRepeatRate)
      case _ => RepeatsSpaced(events[1..], times[1..], last, gap)
  }

  function Times(samples: seq<Sample>): (ts: seq<nat>)
    ensures |ts| == |samples|
    ensures forall k :: 0 <= k < |samples| ==> ts[k] == samples[k].time
    decreases |samples|
  {
    if samples == [] then [] else [samples[0].time] + Times(samples[1..])
  }

  /** In a repeating state the timer holds the time of the latest Pushed or Repeat. */
  predicate TimerAgrees(d: Debouncer, last: nat, gap: nat) {
    && (d.state == WaitingForButtonUp ==> last == d.start && gap == ButtonAutoRepeatDelay)
    && (d.state == WaitingForButtonUpAfterAutoRepeat ==> last == d.start && gap == ButtonAutoRepeatRate)
  }

  /**
    The first Repeat comes at least 800 ms after its Pushed and each further
    Repeat at least 130 ms after the previous one, whatever the samples.
  */
  lemma {:induction false} RunRepeatsSpaced(d: Debouncer, samples: seq<Sample>, last: nat, gap: nat)
    requires TimerAgrees(d, last, gap)
    ensures RepeatsSpaced(Run(d, samples).events, Times(samples), last, gap)
    decreases |samples|
  {
    if samples != [] {
      var s := GetButtonEvent(d, samples[0].button, samples[0].time);
      var evs := Run(d, samples).events;
      assert evs[1..] == Run(s.next, samples[1..]).events;
      assert Times(samples)[1..] == Times(samples[1..]);
      match s.event
      case ButtonAction(Pushed, _) =>
        RunRepeatsSpaced(s.next, samples[1..], samples[0].time, ButtonAutoRepeatDelay);
      case ButtonAction(Repeat, _) =>
        RunRepeatsSpaced(s.next, samples[1..], samples[0].time, ButtonAutoRepeatRate);
      case _ =>
        RunRepeatsSpaced(s.next, samples[1..], last, gap);
    }
  }

  /** Holding the pushed button for less than the repeat delay produces no event at all. */
  lemma {:induction false} ShortHoldIsQuiet(d: Debouncer, samples: seq<Sample>)
    requires d.state == WaitingForButtonUp
    requires forall k :: 0 <= k < |samples| ==>
               samples[k].button == d.id && samples[k].time < d.start + ButtonAutoRepeatDelay
    ensures Run(d, samples).last == d
    ensures forall k :: 0 <= k < |samples| ==> Run(d, samples).events[k] == NoEvent
    decreases |samples|
  {
    if samples != [] {
      ShortHoldIsQuiet(d, samples[1..]);
      assert Run(d, samples).events[1..] == Run(d, samples[1..]).events;
    }
  }

  /** Before the debounce period has run, release confirmation produces nothing and keeps its timer. */
  lemma {:induction false} ReleaseWaitIsQuiet(d: Debouncer, samples: seq<Sample>)
    requires d.state == ConfirmAllButtonsUp
    requires forall k :: 0 <= k < |samples| ==> samples[k].time < d.start + ButtonDebouncePeriod
    ensures Run(d, samples).last == d
    ensures forall k :: 0 <= k < |samples| ==> Run(d, samples).events[k] == NoEvent
    decreases |samples|
  {
    if samples != [] {
      ReleaseWaitIsQuiet(d, samples[1..]);
      assert Run(d, samples).events[1..] == Run(d, samples[1..]).events;
    }
  }

  /** A reading that bounces away before confirmation never becomes a press. */
  lemma {:induction false} BounceIsIgnored(d: Debouncer, samples: seq<Sample>)
    requires d.state == ConfirmButtonDown
    requires |samples| > 0
    requires forall k :: 0 <= k < |samples| - 1 ==> samples[k].time < d.start + ButtonDebouncePeriod
    requires samples[|samples| - 1].time >= d.start + ButtonDebouncePeriod
    requires samples[|samples| - 1].button != d.id
    ensures Run(d, samples).last.state == WaitingForButtonDown
    ensures forall k :: 0 <= k < |samples| ==> Run(d, samples).events[k] == NoEvent
    decreases |samples|
  {
    if |samples| > 1 {
      BounceIsIgnored(d, samples[1..]);
      assert Run(d, samples).events[1..] == Run(d, samples[1..]).events;
    }
  }
}

=== FILE: config.dfy ===
/**
  Configuration values stored in EEPROM (`writeConfigurationByte/Int/Long`
  and the matching reads).

  Each value occupies a marker byte at its address followed by its bytes,
  lowest first. A marker of 0xFF means "never written" and makes every read
  return the caller's default. The EEPROM is a map from address to byte; an
  address absent from the map holds the erased value 0xFF.
*/
module Config {
  import opened Ints

  newtype byte = x: int | 0 <= x < 0x100

  const Erased: byte := 0xFF

  datatype Eeprom = Eeprom(cells: map<int, byte>)

  /** `EEPROM.read`. */
  function Read(e: Eeprom, addr: int): byte {
    if addr in e.cells then e.cells[addr] else Erased
  }

  /** `EEPROM.write`. */
  function Write(e: Eeprom, addr: int, v: byte): (r: Eeprom)
    ensures Read(r, addr) == v
    ensures forall x :: x != addr ==> Read(r, x) == Read(e, x)
  {
    Eeprom(e.cells[addr := v])
  }

  /** The first step of every write: a never-written marker becomes 0, any other marker stays. */
  function MarkWritten(e: Eeprom, a: int): (r: Eeprom)
    ensures Read(r, a) != Erased
    ensures Read(e, a) == Erased ==> Read(r, a) == 0
    ensures Read(e, a) != Erased ==> r == e
    ensures forall x :: x != a ==> Read(r, x) == Read(e, x)
  {
    if Read(e, a) == Erased then Write(e, a, 0) else e
  }

  /** The marker after a write: 0xFF turns into 0, every other value is kept. */
  predicate MarkerAfterWrite(before: Eeprom, after: Eeprom, a: int) {
    Read(after, a) == (if Read(before, a) == Erased then 0 else Read(before, a))
  }

  // ---------------------------------------------------------------------------
  // Byte: marker + 1 byte
  // ---------------------------------------------------------------------------

  function WriteConfigurationByte(e: Eeprom, a: int, value: byte): (r: Eeprom)
    ensures MarkerAfterWrite(e, r, a)
    ensures Read(r, a + 1) == value
    ensures forall x :: (x < a || x > a + 1) ==> Read(r, x) == Read(e, x)
  {
    Write(MarkWritten(e, a), a + 1, value)
  }

  function ReadConfigurationByte(e: Eeprom, a: int, default: byte): (v: byte)
    ensures Read(e, a) == Erased ==> v == default
    ensures Read(e, a) != Erased ==> v == Read(e, a + 1)
  {
    if Read(e, a) == Erased then default else Read(e, a + 1)
  }

  // ---------------------------------------------------------------------------
  // Int: marker + 2 bytes of a 16-bit two's-complement value
  // ---------------------------------------------------------------------------

  /** `(unsigned int)value`: the 16-bit pattern of a 16-bit `int`. */
  function Unsigned16(v: int): (u: int)
    requires InInt16(v)
    ensures 0 <= u < 0x1_0000
    ensures u == (if v < 0 then v + 0x1_0000 else v)
  {
    v % 0x1_0000
  }

  /** `(int)i`: a 16-bit pattern read back as a signed `int`. */
  function Signed16(u: int): (v: int)
    requires 0 <= u < 0x1_0000
    ensures InInt16(v)
    ensures Unsigned16(v) == u
  {
    if u >= 0x8000 then u - 0x1_0000 else u
  }

  function WriteConfigurationInt(e: Eeprom, a: int, value: int): (r: Eeprom)
    requires InInt16(value)
    ensures MarkerAfterWrite(e, r, a)
    ensures Read(r, a + 1) as int == Unsigned16(value) % 0x100
    ensures Read(r, a + 2) as int == Unsigned16(value) / 0x100
    ensures forall x :: (x < a || x > a + 2) ==> Read(r, x) == Read(e, x)
  {
    var u := Unsigned16(value);
    var e1 := Write(MarkWritten(e, a), a + 1, (u % 0x100) as byte);
    Write(e1, a + 2, (u / 0x100) as byte)
  }

  function ReadConfigurationInt(e: Eeprom, a: int, default: int): (v: int)
    requires InInt16(default)
    ensures InInt16(v)
    ensures Read(e, a) == Erased ==> v == default
    ensures Read(e, a) != Erased ==> Unsigned16(v) == Read(e, a + 1) as int + 0x100 * Read(e, a + 2) as int
  {
    if Read(e, a) == Erased then default
    else
      var i := Read(e, a + 1) as int + (Read(e, a + 2) as int) * 0x100;
      Signed16(i)
  }

  // ---------------------------------------------------------------------------
  // Long: marker + 4 bytes of a 32-bit two's-complement value
  // ---------------------------------------------------------------------------

  /**
    Byte `k` of `value` as the source extracts it: `k` arithmetic shifts right
    by 8, then the low 8 bits. An arithmetic shift of a signed value is
    floor division by 256, which is what Dafny's `/` computes for a positive
    divisor; masking with 0xFF is `% 256`.
  */
  function Shifted(value: int, k: nat): int {
    if k == 0 then value else Shifted(value, k - 1) / 0x100
  }

  function LongByte(value: int, k: nat): (b: byte) {
    (Shifted(value, k) % 0x100) as byte
  }

  function WriteConfigurationLong(e: Eeprom, a: int, value: int): (r: Eeprom)
    requires InInt32(value)
    ensures MarkerAfterWrite(e, r, a)
    ensures forall k :: 0 <= k < 4 ==> Read(r, a + 1 + k) == LongByte(value, k)
    ensures forall x :: (x < a || x > a + 4) ==> Read(r, x) == Read(e, x)
  {
    var e1 := Write(MarkWritten(e, a), a + 1, LongByte(value, 0));
    var e2 := Write(e1, a + 2, LongByte(value, 1));
    var e3 := Write(e2, a + 3, LongByte(value, 2));
    Write(e3, a + 4, LongByte(value, 3))
  }

  /** `(long)i`: a 32-bit pattern read back as a signed `long`. */
  function Signed32(u: int): (v: int)
    requires 0 <= u < 0x1_0000_0000
    ensures InInt32(v)
    ensures v % 0x1_0000_0000 == u
  {
    if u >= 0x8000_0000 then u - 0x1_0000_0000 else u
  }

  function ReadConfigurationLong(e: Eeprom, a: int, default: int): (v: int)
    requires InInt32(default)
    ensures InInt32(v)
    ensures Read(e, a) == Erased ==> v == default
    ensures Read(e, a) != Erased ==>
              v % 0x1_0000_0000 == Read(e, a + 1) as int + 0x100 * Read(e, a + 2) as int
                                   + 0x1_0000 * Read(e, a + 3) as int + 0x100_0000 * Read(e, a + 4) as int
  {
    if Read(e, a) == Erased then default
    else
      var i := Read(e, a + 1) as int + (Read(e, a + 2) as int) * 0x100
               + (Read(e, a + 3) as int) * 0x1_0000 + (Read(e, a + 4) as int) * 0x100_0000;
      Signed32(i)
  }

  // ---------------------------------------------------------------------------
  // Round trips and independence
  // ---------------------------------------------------------------------------

  lemma ByteRoundTrip(e: Eeprom, a: int, value: byte, default: byte)
    ensures ReadConfigurationByte(WriteConfigurationByte(e, a, value), a, default) == value
  {
  }

  lemma {:induction false} IntRoundTrip(e: Eeprom, a: int, value: int, default: int)
    requires InInt16(value) && InInt16(default)
    ensures ReadConfigurationInt(WriteConfigurationInt(e, a, value), a, default) == value
  {
    var u := Unsigned16(value);
    assert (u % 0x100) + 0x100 * (u / 0x100) == u;
  }

  /** The four bytes, lowest first, put back together: the value modulo 2^32. */
  lemma {:induction false} LongBytesReassemble(value: int)
    requires InInt32(value)
    ensures LongByte(value, 0) as int + 0x100 * LongByte(value, 1) as int
            + 0x1_0000 * LongByte(value, 2) as int + 0x100_0000 * LongByte(value, 3) as int
            == value % 0x1_0000_0000
  {
    var s1, s2, s3 := Shifted(value, 1), Shifted(value, 2), Shifted(value, 3);
    assert Shifted(value, 0) == value;
    assert s1 == Shifted(value, 0) / 0x100;
    assert s2 == s1 / 0x100;
    assert s3 == s2 / 0x100;
    assert value == value % 0x100 + 0x100 * s1;
    assert s1 == s1 % 0x100 + 0x100 * s2;
    assert s2 == s2 % 0x100 + 0x100 * s3;
    var s4 := s3 / 0x100;
    assert s3 == s3 % 0x100 + 0x100 * s4;
    assert -0x80 <= s3 < 0x80;
    assert s4 == (if value < 0 then -1 else 0);
  }

  lemma {:induction false} LongRoundTrip(e: Eeprom, a: int, value: int, default: int)
    requires InInt32(value) && InInt32(default)
    ensures ReadConfigurationLong(WriteConfigurationLong(e, a, value), a, default) == value
  {
    var r := WriteConfigurationLong(e, a, value);
    assert Read(r, a + 1) == LongByte(value, 0);
    assert Read(r, a + 2) == LongByte(value, 1);
    assert Read(r, a + 3) == LongByte(value, 2);
    assert Read(r, a + 4) == LongByte(value, 3);
    LongBytesReassemble(value);
  }

  /** A value whose marker was never written reads as the default, whatever its width. */
  lemma NeverWrittenReadsDefault(e: Eeprom, a: int, b: byte, i: int, l: int)
    requires Read(e, a) == Erased && InInt16(i) && InInt32(l)
    ensures ReadConfigurationByte(e, a, b) == b
    ensures ReadConfigurationInt(e, a, i) == i
    ensures ReadConfigurationLong(e, a, l) == l
  {
  }

  /**
    Writing a long at `b` leaves an int stored at `a` intact when the five
    bytes of the one and the three bytes of the other do not overlap.
  */
  lemma DisjointWritesIndependent(e: Eeprom, a: int, b: int, value: int, default: int)
    requires InInt32(value) && InInt16(default)
    requires b + 4 < a || a + 2 < b
    ensures ReadConfigurationInt(WriteConfigurationLong(e, b, value), a, default) ==
            ReadConfigurationInt(e, a, default)
  {
    var r := WriteConfigurationLong(e, b, value);
    assert Read(r, a) == Read(e, a) && Read(r, a + 1) == Read(e, a + 1) && Read(r, a + 2) == Read(e, a + 2);
  }
}

=== FILE: interface.dfy ===
/**
  The public constants of the user interface: menu item type codes, the menu
  page size, button identifiers, button event codes, slider callback codes and
  the LCD geometry. Each enumeration is a datatype together with its byte code
  and a decoder, and the lemmas show that the codes are distinct, so a
  `switch` on the byte and a `match` on the datatype dispatch the same way.
*/
module Interface {
  import opened Wrappers

  // ---------------------------------------------------------------------------
  // Menu item types
  // ---------------------------------------------------------------------------

  datatype ItemType =
    | MainMenuHeader
    | SubMenuHeader
    | SubMenuItem
    | CommandItem
    | ToggleItem
    | EndOfMenu

  /** The byte stored in a menu table entry's type field. */
  function ItemTypeCode(t: ItemType): (c: int)
    ensures 0 <= c <= 5
    ensures ItemTypeOfCode(c) == Some(t)
  {
    match t
    case MainMenuHeader => 0
    case SubMenuHeader => 1
    case SubMenuItem => 2
    case CommandItem => 3
    case ToggleItem => 4
    case EndOfMenu => 5
  }

  function ItemTypeOfCode(c: int): (r: Option<ItemType>)
    ensures r.Some? <==> 0 <= c <= 5
  {
    if c == 0 then Some(MainMenuHeader)
    else if c == 1 then Some(SubMenuHeader)
    else if c == 2 then Some(SubMenuItem)
    else if c == 3 then Some(CommandItem)
    else if c == 4 then Some(ToggleItem)
    else if c == 5 then Some(EndOfMenu)
    else None
  }

  /** The six type codes are pairwise distinct. */
  lemma ItemTypeCodeInjective(a: ItemType, b: ItemType)
    ensures ItemTypeCode(a) == ItemTypeCode(b) <==> a == b
  {
    if ItemTypeCode(a) == ItemTypeCode(b) {
      assert Some(a) == ItemTypeOfCode(ItemTypeCode(a)) == Some(b);
    }
  }

  /** Number of menu lines a page shows; the height of the scroll window. */
  const MaxMenuItemsToDisplay: nat := 4

  // ---------------------------------------------------------------------------
  // Buttons and button events
  // ---------------------------------------------------------------------------

  datatype ButtonId = NoButton | Select | Back | Up | Down

  function ButtonCode(b: ButtonId): (c: int)
    ensures 0 <= c <= 4
    ensures c == 0 <==> b == NoButton
    ensures ButtonOfCode(c) == Some(b)
  {
    match b
    case NoButton => 0
    case Select => 1
    case Back => 2
    case Up => 3
    case Down => 4
  }

  function ButtonOfCode(c: int): (r: Option<ButtonId>)
    ensures r.Some? <==> 0 <= c <= 4
  {
    if c == 0 then Some(NoButton)
    else if c == 1 then Some(Select)
    else if c == 2 then Some(Back)
    else if c == 3 then Some(Up)
    else if c == 4 then Some(Down)
    else None
  }

  datatype Phase = Pushed | Released | Repeat

  /** The phase part of an event byte: a multiple of 0x40 in its top two bits. */
  function PhaseCode(p: Phase): (c: int)
    ensures c == 0x40 || c == 0x80 || c == 0xC0
    ensures PhaseOfCode(c) == Some(p)
  {
    match p
    case Pushed => 0x40
    case Released => 0x80
    case Repeat => 0xC0
  }

  function PhaseOfCode(c: int): (r: Option<Phase>)
    ensures r.Some? <==> c == 0x40 || c == 0x80 || c == 0xC0
  {
    if c == 0x40 then Some(Pushed)
    else if c == 0x80 then Some(Released)
    else if c == 0xC0 then Some(Repeat)
    else None
  }

  /** What one poll of the buttons reports: nothing, or a phase of one button. */
  datatype ButtonEvent = NoEvent | ButtonAction(phase: Phase, button: ButtonId)

  /** Real events always name a real button. */
  predicate ValidEvent(e: ButtonEvent) {
    e.ButtonAction? ==> e.button != NoButton
  }

  const ButtonNoEvent: int := 0x00

  /** The byte returned by the event poll: phase code plus button id. */
  function EventCode(e: ButtonEvent): (c: int)
    ensures 0 <= c < 0x100
    ensures ValidEvent(e) ==> (c == ButtonNoEvent <==> e == NoEvent)
  {
    match e
    case NoEvent => ButtonNoEvent
    case ButtonAction(p, b) => PhaseCode(p) + ButtonCode(b)
  }

  /** Splits an event byte back into phase and button, refusing bytes that no valid event has. */
  function DecodeEvent(c: int): (r: Option<ButtonEvent>)
    ensures r.Some? ==> ValidEvent(r.value) && EventCode(r.value) == c
  {
    if c == ButtonNoEvent then Some(NoEvent)
    else if c < 0 then None
    else
      match (PhaseOfCode(c / 0x40 * 0x40), ButtonOfCode(c % 0x40))
      case (Some(p), Some(b)) => if b == NoButton then None else Some(ButtonAction(p, b))
      case _ => None
  }

  /** Phase and button are recovered from every valid event's byte. */
  lemma EventCodeRoundTrip(e: ButtonEvent)
    requires ValidEvent(e)
    ensures DecodeEvent(EventCode(e)) == Some(e)
  {
    if e.ButtonAction? {
      var c := EventCode(e);
      assert c / 0x40 * 0x40 == PhaseCode(e.phase);
      assert c % 0x40 == ButtonCode(e.button);
    }
  }

  /** Distinct valid events have distinct bytes, so the consumers' `switch` is unambiguous. */
  lemma EventCodeInjective(e1: ButtonEvent, e2: ButtonEvent)
    requires ValidEvent(e1) && ValidEvent(e2)
    ensures EventCode(e1) == EventCode(e2) <==> e1 == e2
  {
    if EventCode(e1) == EventCode(e2) {
      EventCodeRoundTrip(e1);
      EventCodeRoundTrip(e2);
    }
  }

  // ---------------------------------------------------------------------------
  // Slider callback actions
  // ---------------------------------------------------------------------------

  datatype SliderAction = ValueChanged | ValueSet | Canceled

  function SliderActionCode(a: SliderAction): (c: int)
    ensures 1 <= c <= 3
    ensures SliderActionOfCode(c) == Some(a)
  {
    match a
    case ValueChanged => 1
    case ValueSet => 2
    case Canceled => 3
  }

  function SliderActionOfCode(c: int): (r: Option<SliderAction>)
    ensures r.Some? <==> 1 <= c <= 3
  {
    if c == 1 then Some(ValueChanged)
    else if c == 2 then Some(ValueSet)
    else if c == 3 then Some(Canceled)
    else None
  }

  /** The three slider outcome codes are pairwise distinct. */
  lemma SliderActionCodeInjective(a: SliderAction, b: SliderAction)
    ensures SliderActionCode(a) == SliderActionCode(b) <==> a == b
  {
    if SliderActionCode(a) == SliderActionCode(b) {
      assert Some(a) == SliderActionOfCode(SliderActionCode(a)) == Some(b);
    }
  }

  // ---------------------------------------------------------------------------
  // LCD geometry
  // ---------------------------------------------------------------------------

  const LcdWidthInPixels: int := 84
  const LcdLastColumnX: int := LcdWidthInPixels - 1
}

=== FILE: ints.dfy ===
/** The ranges of the target's C integer types: `int` is 16 bits, `long` 32 bits. */
module Ints {
  predicate InInt16(x: int) {
    -0x8000 <= x < 0x8000
  }

  predicate InInt32(x: int) {
    -0x8000_0000 <= x < 0x8000_0000
  }
}

=== FILE: menu.dfy ===
/**
  The menu navigation engine: `displayAndExecuteMenu`, `selectAndDrawMenu`,
  `drawMenu`, `drawMenuItem` and `executeMenuItem`.

  Menu tables live in an arena and refer to each other by index, so a
  header's back-link and a sub-menu item's child are plain values. Drawing is
  described by what it shows (which entry on which line, whether it is
  highlighted, which toggle query it makes) rather than by LCD commands, and
  user functions are identified by an opaque action number; calling one is an
  observable output of the step.
*/
module Menu {
  import opened Wrappers
  import opened Interface

  type TableId = nat

  /** Identifies one user function of a Command or Toggle entry. */
  type ActionId = nat

  /** One row of a menu table. */
  datatype Entry =
    | MainHeader(link: Option<TableId>)
    | SubHeader(parent: TableId)
    | SubMenu(text: string, child: TableId)
    | Command(text: string, action: ActionId)
    | Toggle(text: string, action: ActionId)
    | EndOfMenuEntry

  predicate IsItem(e: Entry) {
    e.SubMenu? || e.Command? || e.Toggle?
  }

  type Table = seq<Entry>
  type Arena = seq<Table>

  /**
    A table is a header, at least one item, and the end sentinel. With no
    item at all the source would select the sentinel and read past it on Down.
  */
  predicate WellFormedTable(t: Table) {
    && |t| >= 3
    && (t[0].MainHeader? || t[0].SubHeader?)
    && t[|t| - 1].EndOfMenuEntry?
    && forall i :: 1 <= i < |t| - 1 ==> IsItem(t[i])
  }

  /** Every table is well formed and every link that is followed names a table. */
  predicate WellFormedArena(arena: Arena) {
    forall id :: 0 <= id < |arena| ==>
      && WellFormedTable(arena[id])
      && (arena[id][0].SubHeader? ==> arena[id][0].parent < |arena|)
      && (forall i :: 1 <= i < |arena[id]| - 1 && arena[id][i].SubMenu? ==> arena[id][i].child < |arena|)
  }

  /** The current table, the selected entry and the entry on the top line. */
  datatype Cursor = Cursor(table: TableId, sel: nat, top: nat)

  /**
    The selection is a real item (never the header, never the sentinel) and
    lies in the window of `MaxMenuItemsToDisplay` lines starting at `top`.
  */
  predicate CursorOk(arena: Arena, c: Cursor) {
    && WellFormedArena(arena)
    && c.table < |arena|
    && 1 <= c.top <= c.sel < c.top + MaxMenuItemsToDisplay
    && c.sel < |arena[c.table]| - 1
  }

  // ---------------------------------------------------------------------------
  // Drawing
  // ---------------------------------------------------------------------------

  /** A call of a toggle's user function; `changeState` is the source's change flag. */
  datatype ToggleCall = ToggleCall(action: ActionId, changeState: bool)

  /** What follows the label on a row. */
  datatype Trailer =
    | Plain
    | SubMenuArrow
    | ToggleState(query: ToggleCall)

  /** One drawn menu line: which entry, on which LCD line, highlighted or not. */
  datatype Row = Row(line: nat, index: nat, text: string, highlighted: bool, trailer: Trailer)

  /**
    Draws entry `idx` on LCD line `line`. A toggle's state text is obtained by
    calling its function with the change flag off, which only queries.
  */
  function DrawMenuItem(t: Table, idx: nat, line: nat, sel: nat): (r: Row)
    requires idx < |t| && IsItem(t[idx])
    ensures r.index == idx && r.line == line && r.text == t[idx].text
    ensures r.highlighted <==> idx == sel
    ensures t[idx].SubMenu? ==> r.trailer == SubMenuArrow
    ensures t[idx].Command? ==> r.trailer == Plain
    ensures r.trailer.ToggleState? <==> t[idx].Toggle?
    ensures r.trailer.ToggleState? ==> r.trailer.query == ToggleCall(t[idx].action, false)
  {
    var hl := idx == sel;
    match t[idx]
    case SubMenu(text, _) => Row(line, idx, text, hl, SubMenuArrow)
    case Command(text, _) => Row(line, idx, text, hl, Plain)
    case Toggle(text, a) => Row(line, idx, text, hl, ToggleState(ToggleCall(a, false)))
  }

  /** The loop of `drawMenu` from entry `idx` on LCD line `line` onward. */
  function DrawLines(t: Table, sel: nat, idx: nat, line: nat): (rows: seq<Row>)
    requires WellFormedTable(t)
    requires 1 <= idx < |t| && line <= MaxMenuItemsToDisplay
    ensures |rows| == Min(MaxMenuItemsToDisplay - line, |t| - 1 - idx)
    ensures forall k :: 0 <= k < |rows| ==>
              rows[k].index == idx + k && rows[k].line == line + k &&
              idx + k < |t| - 1 && IsItem(t[idx + k]) &&
              (rows[k].highlighted <==> idx + k == sel)
    decreases MaxMenuItemsToDisplay - line
  {
    if line == MaxMenuItemsToDisplay || t[idx].EndOfMenuEntry? then []
    else [DrawMenuItem(t, idx, line, sel)] + DrawLines(t, sel, idx + 1, line + 1)
  }

  function Min(a: int, b: int): int {
    if a <= b then a else b
  }

  /**
    Draws the page: the entries from `top` on, one per line, until the page
    is full or the sentinel is reached; the selected entry is highlighted.
  */
  function DrawMenu(t: Table, sel: nat, top: nat): (rows: seq<Row>)
    requires WellFormedTable(t) && 1 <= top < |t|
    ensures |rows| == Min(MaxMenuItemsToDisplay, |t| - 1 - top) <= MaxMenuItemsToDisplay
    ensures forall k :: 0 <= k < |rows| ==>
              rows[k].index == top + k && rows[k].line == k && top + k < |t| - 1 && IsItem(t[top + k])
    ensures top <= sel < top + |rows| ==> rows[sel - top].highlighted
    ensures forall k :: 0 <= k < |rows| && rows[k].highlighted ==> rows[k].index == sel
  {
    DrawLines(t, sel, top, 0)
  }

  /** The labels of the two buttons below the display. */
  datatype ButtonBar = ButtonBar(left: string, right: string)

  /**
    "Select" always; "Back" unless the table is a main menu whose link is
    set, because then Back does nothing.
  */
  function MenuButtonBar(t: Table): (bar: ButtonBar)
    requires |t| > 0
    ensures bar.left == "Select"
    ensures bar.right == "" <==> t[0].MainHeader? && t[0].link.Some?
    ensures bar.right != "" ==> bar.right == "Back"
  {
    if t[0].MainHeader? && t[0].link.Some? then ButtonBar("Select", "")
    else ButtonBar("Select", "Back")
  }

  /** Everything `selectAndDrawMenu` shows: the new cursor, the page and the button bar. */
  datatype Screen = Screen(cursor: Cursor, rows: seq<Row>, bar: ButtonBar)

  /** Makes `id` the current table with its first item selected on the top line. */
  function SelectAndDrawMenu(arena: Arena, id: TableId): (s: Screen)
    requires WellFormedArena(arena) && id < |arena|
    ensures s.cursor == Cursor(id, 1, 1)
    ensures CursorOk(arena, s.cursor)
    ensures 1 <= |s.rows| <= MaxMenuItemsToDisplay && s.rows[0].index == 1 && s.rows[0].highlighted
    ensures s.rows == DrawMenu(arena[id], 1, 1)
    ensures s.bar == MenuButtonBar(arena[id])
  {
    var t := arena[id];
    Screen(Cursor(id, 1, 1), DrawMenu(t, 1, 1), MenuButtonBar(t))
  }

  // ---------------------------------------------------------------------------
  // Handling one button event
  // ---------------------------------------------------------------------------

  /** What the user sees (or what user code runs) after one event. */
  datatype Outcome =
    | Unchanged
    | PageRedrawn(rows: seq<Row>)
    | MenuShown(screen: Screen)
    | CommandRun(action: ActionId, screen: Screen)
    | ToggleAdvanced(call: ToggleCall, row: Row)
    | MenuExited

  datatype MenuStep = MenuStep(cursor: Cursor, outcome: Outcome)

  /** Selects the next entry, scrolling down one line when it leaves the window. */
  function MoveDown(arena: Arena, c: Cursor): (r: MenuStep)
    requires CursorOk(arena, c)
    ensures CursorOk(arena, r.cursor) && r.cursor.table == c.table
    ensures arena[c.table][c.sel + 1].EndOfMenuEntry? ==> r == MenuStep(c, Unchanged)
    ensures !arena[c.table][c.sel + 1].EndOfMenuEntry? ==>
              r.cursor.sel == c.sel + 1 &&
              r.outcome == PageRedrawn(DrawMenu(arena[c.table], r.cursor.sel, r.cursor.top)) &&
              r.cursor.top == (if c.sel + 1 == c.top + MaxMenuItemsToDisplay then c.top + 1 else c.top)
  {
    var t := arena[c.table];
    var sel := c.sel + 1;
    if t[sel].EndOfMenuEntry? then MenuStep(c, Unchanged)
    else
      var top := if sel - c.top >= MaxMenuItemsToDisplay then c.top + 1 else c.top;
      MenuStep(Cursor(c.table, sel, top), PageRedrawn(DrawMenu(t, sel, top)))
  }

  /** Selects the previous entry, scrolling up one line when it leaves the window. */
  function MoveUp(arena: Arena, c: Cursor): (r: MenuStep)
    requires CursorOk(arena, c)
    ensures CursorOk(arena, r.cursor) && r.cursor.table == c.table
    ensures c.sel == 1 ==> r == MenuStep(c, Unchanged)
    ensures c.sel > 1 ==>
              r.cursor.sel == c.sel - 1 &&
              r.outcome == PageRedrawn(DrawMenu(arena[c.table], r.cursor.sel, r.cursor.top)) &&
              r.cursor.top == (if c.sel == c.top then c.top - 1 else c.top)
  {
    var t := arena[c.table];
    var sel := c.sel - 1;
    if sel == 0 then MenuStep(c, Unchanged)
    else
      var top := if sel - c.top < 0 then c.top - 1 else c.top;
      MenuStep(Cursor(c.table, sel, top), PageRedrawn(DrawMenu(t, sel, top)))
  }

  /**
    Runs the selected entry: a sub-menu is entered, a command runs and its
    table is shown afresh, a toggle advances and only its line is redrawn.
  */
  function ExecuteMenuItem(arena: Arena, c: Cursor): (r: MenuStep)
    requires CursorOk(arena, c)
    ensures CursorOk(arena, r.cursor)
    ensures arena[c.table][c.sel].SubMenu? ==>
              r.cursor == Cursor(arena[c.table][c.sel].child, 1, 1) &&
              r.outcome == MenuShown(SelectAndDrawMenu(arena, arena[c.table][c.sel].child))
    ensures arena[c.table][c.sel].Command? ==>
              r.cursor == Cursor(c.table, 1, 1) &&
              r.outcome == CommandRun(arena[c.table][c.sel].action, SelectAndDrawMenu(arena, c.table))
    ensures arena[c.table][c.sel].Toggle? ==>
              r.cursor == c &&
              r.outcome == ToggleAdvanced(ToggleCall(arena[c.table][c.sel].action, true),
                                          DrawMenuItem(arena[c.table], c.sel, c.sel - c.top, c.sel))
  {
    var t := arena[c.table];
    match t[c.sel]
    case SubMenu(_, child) =>
      var s := SelectAndDrawMenu(arena, child);
      MenuStep(s.cursor, MenuShown(s))
    case Command(_, a) =>
      var s := SelectAndDrawMenu(arena, c.table);
      MenuStep(s.cursor, CommandRun(a, s))
    case Toggle(_, a) =>
      MenuStep(c, ToggleAdvanced(ToggleCall(a, true), DrawMenuItem(t, c.sel, c.sel - c.top, c.sel)))
  }

  /**
    Back: a sub-menu returns to its parent; a main menu without a link ends
    the menu loop; a main menu with a link ignores the button.
  */
  function GoBack(arena: Arena, c: Cursor): (r: MenuStep)
    requires CursorOk(arena, c)
    ensures CursorOk(arena, r.cursor)
    ensures r.outcome == MenuExited <==> arena[c.table][0] == MainHeader(None)
    ensures arena[c.table][0].SubHeader? ==>
              r.cursor == Cursor(arena[c.table][0].parent, 1, 1) &&
              r.outcome == MenuShown(SelectAndDrawMenu(arena, arena[c.table][0].parent))
    ensures arena[c.table][0].MainHeader? ==> r.cursor == c
    ensures arena[c.table][0].MainHeader? && arena[c.table][0].link.Some? ==> r.outcome == Unchanged
  {
    match arena[c.table][0]
    case SubHeader(parent) =>
      var s := SelectAndDrawMenu(arena, parent);
      MenuStep(s.cursor, MenuShown(s))
    case MainHeader(link) =>
      if link == None then MenuStep(c, MenuExited) else MenuStep(c, Unchanged)
  }

  /** One pass of the event `switch` in `displayAndExecuteMenu`. */
  function HandleMenuEvent(arena: Arena, c: Cursor, ev: ButtonEvent): (r: MenuStep)
    requires CursorOk(arena, c)
    ensures CursorOk(arena, r.cursor)
    ensures r.outcome == MenuExited <==> ev == ButtonAction(Pushed, Back) && arena[c.table][0] == MainHeader(None)
    ensures r.outcome.CommandRun? || r.outcome.ToggleAdvanced? ==> ev == ButtonAction(Pushed, Select)
    ensures ev.NoEvent? || ev.phase == Released ==> r == MenuStep(c, Unchanged)
    ensures ev == ButtonAction(Repeat, Select) || ev == ButtonAction(Repeat, Back) ==> r == MenuStep(c, Unchanged)
    // the four handled cases dispatch to their operations
    ensures ev == ButtonAction(Pushed, Down) || ev == ButtonAction(Repeat, Down) ==> r == MoveDown(arena, c)
    ensures ev == ButtonAction(Pushed, Up) || ev == ButtonAction(Repeat, Up) ==> r == MoveUp(arena, c)
    ensures ev == ButtonAction(Pushed, Select) ==> r == ExecuteMenuItem(arena, c)
    ensures ev == ButtonAction(Pushed, Back) ==> r == GoBack(arena, c)
  {
    match ev
    case NoEvent => MenuStep(c, Unchanged)
    case ButtonAction(phase, button) =>
      match button
      case Down => if phase == Pushed || phase == Repeat then MoveDown(arena, c) else MenuStep(c, Unchanged)
      case Up => if phase == Pushed || phase == Repeat then MoveUp(arena, c) else MenuStep(c, Unchanged)
      case Select => if phase == Pushed then ExecuteMenuItem(arena, c) else MenuStep(c, Unchanged)
      case Back => if phase == Pushed then GoBack(arena, c) else MenuStep(c, Unchanged)
      case NoButton => MenuStep(c, Unchanged)
  }

  // ---------------------------------------------------------------------------
  // Properties
  // ---------------------------------------------------------------------------

  /** The highlighted entry is always on the page, on line `sel - top`. */
  lemma SelectionVisible(arena: Arena, c: Cursor)
    requires CursorOk(arena, c)
    ensures var rows := DrawMenu(arena[c.table], c.sel, c.top);
            c.sel - c.top < |rows| && rows[c.sel - c.top].index == c.sel && rows[c.sel - c.top].highlighted
  {
  }

  /** The "Back" label is missing exactly when pushing Back changes nothing. */
  lemma HiddenBackDoesNothing(arena: Arena, c: Cursor)
    requires CursorOk(arena, c)
    ensures MenuButtonBar(arena[c.table]).right == "" <==>
            HandleMenuEvent(arena, c, ButtonAction(Pushed, Back)) == MenuStep(c, Unchanged)
  {
  }

  /** Up undoes a Down that moved: the same entry is selected again. */
  lemma UpUndoesDown(arena: Arena, c: Cursor)
    requires CursorOk(arena, c)
    requires !arena[c.table][c.sel + 1].EndOfMenuEntry?
    ensures MoveUp(arena, MoveDown(arena, c).cursor).cursor.sel == c.sel
  {
  }

  /** The loop of `displayAndExecuteMenu` after its first page: events are handled until one exits. */
  datatype Session = Session(cursor: Cursor, outcomes: seq<Outcome>, exited: bool)

  function RunMenu(arena: Arena, c: Cursor, events: seq<ButtonEvent>): (s: Session)
    requires CursorOk(arena, c)
    ensures CursorOk(arena, s.cursor)
    ensures |s.outcomes| <= |events|
    ensures s.exited <==> |s.outcomes| > 0 && s.outcomes[|s.outcomes| - 1] == MenuExited
    ensures !s.exited ==> |s.outcomes| == |events|
    // the loop returns at once: no outcome follows the exit
    ensures forall k :: 0 <= k < |s.outcomes| - 1 ==> s.outcomes[k] != MenuExited
    // only Back pushed on a dismissible table ends the loop
    ensures s.exited ==> events[|s.outcomes| - 1] == ButtonAction(Pushed, Back) && Dismissible(arena[s.cursor.table])
    decreases |events|
  {
    if events == [] then Session(c, [], false)
    else
      var r := HandleMenuEvent(arena, c, events[0]);
      if r.outcome == MenuExited then Session(r.cursor, [MenuExited], true)
      else
        var rest := RunMenu(arena, r.cursor, events[1..]);
        Session(rest.cursor, [r.outcome] + rest.outcomes, rest.exited)
  }

  /** A table that Back can dismiss: a main header with no link. */
  predicate Dismissible(t: Table) {
    |t| > 0 && t[0] == MainHeader(None)
  }

  /**
    When no table of the arena is dismissible the menu never returns to its
    caller, whatever buttons are pressed.
  */
  lemma NoDismissibleTableNeverExits(arena: Arena, c: Cursor, events: seq<ButtonEvent>)
    requires CursorOk(arena, c)
    requires forall id :: 0 <= id < |arena| ==> !Dismissible(arena[id])
    ensures !RunMenu(arena, c, events).exited
    ensures |RunMenu(arena, c, events).outcomes| == |events|
  {
  }

  /** On a dismissible main menu a single Back press ends the menu loop. */
  lemma {:induction false} BackExitsDismissibleRoot(arena: Arena, root: TableId, events: seq<ButtonEvent>)
    requires WellFormedArena(arena) && root < |arena| && Dismissible(arena[root])
    requires |events| > 0 && events[0] == ButtonAction(Pushed, Back)
    ensures RunMenu(arena, SelectAndDrawMenu(arena, root).cursor, events) ==
            Session(Cursor(root, 1, 1), [MenuExited], true)
  {
  }
}

=== FILE: slider.dfy ===
/**
  The integer slider: the event handling of `displaySlider` and the needle
  length computed by `drawSlider`.

  Values are unbounded integers here. The source computes them in 16-bit
  `int`; `MoveAsWritten` and `NeedleLengthAsWritten` model that arithmetic
  as written, with the inputs on which it leaves the slider's range, and the
  rest of the model uses the arithmetic the code evidently intends.
*/
module Slider {
  import opened Wrappers
  import opened Interface
  import opened Ints

  // ---------------------------------------------------------------------------
  // Slider state and one event
  // ---------------------------------------------------------------------------

  /** The repeat counter is an `unsigned int`: it counts modulo 2^16. */
  const RepeatCountModulus: nat := 0x1_0000

  /** Repeat ticks per acceleration stair. */
  const TicksPerStair: nat := 16

  datatype Slider = Slider(min: int, max: int, step: int, value: int, repeatCount: nat)

  /** What the session starts with and every event keeps: a positive step and a value in range. */
  predicate Valid(s: Slider) {
    s.step > 0 && s.min <= s.value <= s.max && s.repeatCount < RepeatCountModulus
  }

  /** The staircase: one more `step` for every 16 repeat ticks. */
  function StepSize(step: int, count: nat): (size: int)
    requires step > 0
    ensures size >= step
    ensures count >= TicksPerStair ==> size >= 2 * step
    ensures size == step <==> count < TicksPerStair
  {
    step * (count / TicksPerStair + 1)
  }

  /** Every 16 ticks the step size grows by exactly one `step`. */
  lemma StepSizeStaircase(step: int, count: nat)
    requires step > 0
    ensures StepSize(step, count + TicksPerStair) == StepSize(step, count) + step
  {
    assert (count + TicksPerStair) / TicksPerStair == count / TicksPerStair + 1;
    assert step * (count / TicksPerStair + 1 + 1) == step * (count / TicksPerStair + 1) + step;
  }

  /** An invocation of the caller's callback: outcome code and value. */
  datatype Callback = Callback(action: SliderAction, value: int)

  datatype SliderStep = SliderStep(slider: Slider, callback: Option<Callback>)

  /** True when the event ends the slider session (Set or Cancel). */
  predicate Finishes(r: SliderStep) {
    r.callback.Some? && r.callback.value.action != ValueChanged
  }

  /** The events that end a slider session: Select or Back pushed. */
  predicate EndsSlider(ev: ButtonEvent) {
    ev == ButtonAction(Pushed, Select) || ev == ButtonAction(Pushed, Back)
  }

  /** The Down arm: `count` is the already incremented repeat counter. */
  function Lower(s: Slider, count: nat): (r: SliderStep)
    requires Valid(s) && count < RepeatCountModulus
    ensures Valid(r.slider) && r.slider == s.(value := r.slider.value, repeatCount := count)
    ensures s.min <= r.slider.value <= s.value
    ensures r.slider.value == s.value - StepSize(s.step, count) || r.slider.value == s.min
    ensures r.slider.value == s.min ==> s.value - StepSize(s.step, count) <= s.min
    ensures r.callback.Some? <==> r.slider.value != s.value
    ensures r.callback.Some? ==> r.callback.value == Callback(ValueChanged, r.slider.value)
  {
    var candidate := s.value - StepSize(s.step, count);
    var newValue := if candidate < s.min then s.min else candidate;
    if newValue == s.value then SliderStep(s.(repeatCount := count), None)
    else SliderStep(s.(value := newValue, repeatCount := count), Some(Callback(ValueChanged, newValue)))
  }

  /** The Up arm: `count` is the already incremented repeat counter. */
  function Raise(s: Slider, count: nat): (r: SliderStep)
    requires Valid(s) && count < RepeatCountModulus
    ensures Valid(r.slider) && r.slider == s.(value := r.slider.value, repeatCount := count)
    ensures s.value <= r.slider.value <= s.max
    ensures r.slider.value == s.value + StepSize(s.step, count) || r.slider.value == s.max
    ensures r.slider.value == s.max ==> s.value + StepSize(s.step, count) >= s.max
    ensures r.callback.Some? <==> r.slider.value != s.value
    ensures r.callback.Some? ==> r.callback.value == Callback(ValueChanged, r.slider.value)
  {
    var candidate := s.value + StepSize(s.step, count);
    var newValue := if candidate > s.max then s.max else candidate;
    if newValue == s.value then SliderStep(s.(repeatCount := count), None)
    else SliderStep(s.(value := newValue, repeatCount := count), Some(Callback(ValueChanged, newValue)))
  }

  /** One pass of the event `switch` in `displaySlider`. */
  function HandleSliderEvent(s: Slider, ev: ButtonEvent): (r: SliderStep)
    requires Valid(s)
    ensures Valid(r.slider)
    ensures r.slider.min == s.min && r.slider.max == s.max && r.slider.step == s.step
    // the value changes exactly when a Changed callback reports the new value
    ensures r.slider.value != s.value <==> r.callback.Some? && r.callback.value.action == ValueChanged
    ensures r.callback.Some? && r.callback.value.action == ValueChanged ==> r.callback.value.value == r.slider.value
    // a push restarts the acceleration, a repeat continues it
    ensures ev.ButtonAction? && ev.phase == Pushed && ev.button in {Up, Down} ==> r.slider.repeatCount == 1
    ensures ev.ButtonAction? && ev.phase == Repeat && ev.button in {Up, Down} ==>
              r.slider.repeatCount == (s.repeatCount + 1) % RepeatCountModulus
    ensures ev.ButtonAction? && ev.phase != Released && ev.button == Down ==> r.slider.value <= s.value
    ensures ev.ButtonAction? && ev.phase != Released && ev.button == Up ==> r.slider.value >= s.value
    // Down and Up step and clamp the value as the two arms do
    ensures ev == ButtonAction(Pushed, Down) ==> r == Lower(s, 1)
    ensures ev == ButtonAction(Repeat, Down) ==> r == Lower(s, (s.repeatCount + 1) % RepeatCountModulus)
    ensures ev == ButtonAction(Pushed, Up) ==> r == Raise(s, 1)
    ensures ev == ButtonAction(Repeat, Up) ==> r == Raise(s, (s.repeatCount + 1) % RepeatCountModulus)
    // Set reports the value, Cancel reports zero; both end the session
    ensures ev == ButtonAction(Pushed, Select) ==> r == SliderStep(s, Some(Callback(ValueSet, s.value)))
    ensures ev == ButtonAction(Pushed, Back) ==> r == SliderStep(s, Some(Callback(Canceled, 0)))
    ensures Finishes(r) <==> EndsSlider(ev)
    // everything else is ignored, the Select and Back repeats included
    ensures ev == ButtonAction(Repeat, Select) || ev == ButtonAction(Repeat, Back) ==> r == SliderStep(s, None)
    ensures ev.NoEvent? || ev.phase == Released || ev.button == NoButton ==> r == SliderStep(s, None)
  {
    match ev
    case NoEvent => SliderStep(s, None)
    case ButtonAction(phase, button) =>
      match button
      case Down =>
        if phase == Pushed then Lower(s, 1)
        else if phase == Repeat then Lower(s, (s.repeatCount + 1) % RepeatCountModulus)
        else SliderStep(s, None)
      case Up =>
        if phase == Pushed then Raise(s, 1)
        else if phase == Repeat then Raise(s, (s.repeatCount + 1) % RepeatCountModulus)
        else SliderStep(s, None)
      case Select =>
        if phase == Pushed then SliderStep(s, Some(Callback(ValueSet, s.value))) else SliderStep(s, None)
      case Back =>
        if phase == Pushed then SliderStep(s, Some(Callback(Canceled, 0))) else SliderStep(s, None)
      case NoButton => SliderStep(s, None)
  }

  /** The slider loop: events are handled until Set or Cancel ends it. */
  datatype SliderSession = SliderSession(slider: Slider, callbacks: seq<Callback>, finished: bool)

  function RunSlider(s: Slider, events: seq<ButtonEvent>): (r: SliderSession)
    requires Valid(s)
    ensures Valid(r.slider)
    ensures r.slider.min == s.min && r.slider.max == s.max && r.slider.step == s.step
    ensures forall k :: 0 <= k < |r.callbacks| && r.callbacks[k].action == ValueChanged ==>
              s.min <= r.callbacks[k].value <= s.max
    ensures r.finished <==> |r.callbacks| > 0 && r.callbacks[|r.callbacks| - 1].action != ValueChanged
    // the loop returns at once after Set or Cancel: only the last callback can end it
    ensures forall k :: 0 <= k < |r.callbacks| - 1 ==> r.callbacks[k].action == ValueChanged
    ensures r.finished <==> exists k :: 0 <= k < |events| && EndsSlider(events[k])
    decreases |events|
  {
    if events == [] then SliderSession(s, [], false)
    else
      var r := HandleSliderEvent(s, events[0]);
      if Finishes(r) then SliderSession(r.slider, [r.callback.value], true)
      else
        var rest := RunSlider(r.slider, events[1..]);
        var here := if r.callback.Some? then [r.callback.value] else [];
        SliderSession(rest.slider, here + rest.callbacks, rest.finished)
  }

  /** The slider loop handles its first event, then the rest. */
  lemma RunSliderUnfold(s: Slider, events: seq<ButtonEvent>)
    requires Valid(s) && |events| > 0 && !Finishes(HandleSliderEvent(s, events[0]))
    ensures RunSlider(s, events).slider == RunSlider(HandleSliderEvent(s, events[0]).slider, events[1..]).slider
  {
  }

  /** Distance moved after `k` Down events on a step-1 slider that has not hit its bound. */
  function HeldDistance(k: nat): nat {
    if k <= TicksPerStair - 1 then k else TicksPerStair - 1 + 2 * (k - (TicksPerStair - 1))
  }

  /** The slider after `k` of the held Down events, starting from 50 on 0..100 with step 1. */
  function HeldSlider(k: nat): (s: Slider)
    requires k <= 21
    ensures Valid(s) && s.value == 50 - HeldDistance(k)
  {
    Slider(0, 100, 1, 50 - HeldDistance(k), k)
  }

  /** The `k`-th held event: the push, then repeats. */
  function HeldEvent(k: nat): ButtonEvent {
    if k == 0 then ButtonAction(Pushed, Down) else ButtonAction(Repeat, Down)
  }

  /** One held event moves the slider from `HeldSlider(k)` to `HeldSlider(k + 1)` without ending the loop. */
  lemma HeldDownStep(k: nat)
    requires k < 21
    ensures var r := HandleSliderEvent(HeldSlider(k), HeldEvent(k));
            !Finishes(r) && r.slider == HeldSlider(k + 1)
  {
    var s := HeldSlider(k);
    assert (k + 1) % RepeatCountModulus == k + 1;
    assert StepSize(1, k + 1) == HeldDistance(k + 1) - HeldDistance(k);
    assert HandleSliderEvent(s, HeldEvent(k)) == Lower(s, k + 1);
  }

  /** The loop over held events: the first one handled, the rest still to come. */
  lemma HeldDownRun(k: nat, evs: seq<ButtonEvent>)
    requires k < 21 && |evs| > 0 && evs[0] == HeldEvent(k)
    ensures RunSlider(HeldSlider(k), evs).slider == RunSlider(HeldSlider(k + 1), evs[1..]).slider
  {
    HeldDownStep(k);
    RunSliderUnfold(HeldSlider(k), evs);
  }

  /** The events of holding Down for a push and 20 repeats, from the `k`-th on. */
  function HeldEvents(k: nat): (evs: seq<ButtonEvent>)
    requires k <= 21
    ensures |evs| == 21 - k
    ensures forall i :: 0 <= i < |evs| ==> evs[i] == HeldEvent(k + i)
    decreases 21 - k
  {
    if k == 21 then [] else [HeldEvent(k)] + HeldEvents(k + 1)
  }

  /** After `k` of the held events the value has moved by `HeldDistance(k)`; the rest bring it to 23. */
  lemma {:induction false} HeldDownFrom(k: nat)
    requires k <= 21
    ensures RunSlider(HeldSlider(k), HeldEvents(k)).slider.value == 23
    decreases 21 - k
  {
    if k < 21 {
      var evs := HeldEvents(k);
      HeldDownRun(k, evs);
      assert evs[1..] == HeldEvents(k + 1);
      HeldDownFrom(k + 1);
    }
  }

  /** Holding Down on 0..100 from 50: a push and 20 repeats move the value by 27, not 21. */
  lemma HeldDownAccelerates()
    ensures RunSlider(Slider(0, 100, 1, 50, 0),
                      [ButtonAction(Pushed, Down)] + seq(20, _ => ButtonAction(Repeat, Down))).slider.value == 23
  {
    assert HeldEvents(0) == [ButtonAction(Pushed, Down)] + seq(20, _ => ButtonAction(Repeat, Down));
    assert HeldSlider(0) == Slider(0, 100, 1, 50, 0);
    HeldDownFrom(0);
  }

  /** A held button never pushes the value past the bound, however long it is held. */
  lemma {:induction false} HeldDownStopsAtMin(s: Slider, n: nat)
    requires Valid(s)
    ensures RunSlider(s, seq(n, _ => ButtonAction(Repeat, Down))).slider.value >= s.min
    ensures s.value == s.min ==> RunSlider(s, seq(n, _ => ButtonAction(Repeat, Down))).callbacks == []
    decreases n
  {
    if n > 0 {
      var evs := seq(n, _ => ButtonAction(Repeat, Down));
      var r := HandleSliderEvent(s, evs[0]);
      assert evs[1..] == seq(n - 1, _ => ButtonAction(Repeat, Down));
      HeldDownStopsAtMin(r.slider, n - 1);
    }
  }

  // ---------------------------------------------------------------------------
  // The needle
  // ---------------------------------------------------------------------------

  const SliderFrameLeftX: int := 0
  const SliderFrameRightX: int := LcdLastColumnX
  const SliderNeedlePaddingFromFrame: int := 3
  const SliderNeedleWidth: int := (SliderFrameRightX - SliderFrameLeftX) - 2 * SliderNeedlePaddingFromFrame

  lemma MulMonotone(x: int, y: int, d: int)
    requires x <= y && d >= 0
    ensures x * d <= y * d
  {
    assert y * d - x * d == (y - x) * d;
  }

  lemma DivMonotone(a: int, b: int, d: int)
    requires 0 <= a <= b && d > 0
    ensures a / d <= b / d
  {
    var qa, qb := a / d, b / d;
    assert qa * d + a % d == a && b == qb * d + b % d;
    if qa > qb {
      MulMonotone(qb + 1, qa, d);
    }
  }

  lemma MulDivCancel(k: int, d: int)
    requires d > 0
    ensures (k * d) / d == k
  {
    var q, r := (k * d) / d, (k * d) % d;
    assert k * d == q * d + r && 0 <= r < d;
    if q < k {
      MulMonotone(q + 1, k, d);
    } else if q > k {
      MulMonotone(k + 1, q, d);
    }
  }

  /**
    The needle length in pixels. Both operands are non-negative, so the C
    division that truncates toward zero agrees with Dafny's here; the range
    must not be empty because the source divides by `max - min`.
  */
  function NeedleLength(value: int, min: int, max: int): (n: int)
    requires min < max && min <= value <= max
    ensures 0 <= n <= SliderNeedleWidth == LcdLastColumnX - 6 == 77
    ensures value == min ==> n == 0
    ensures value == max ==> n == SliderNeedleWidth
  {
    var d := max - min;
    assert 0 <= (value - min) * SliderNeedleWidth <= d * SliderNeedleWidth;
    DivMonotone((value - min) * SliderNeedleWidth, d * SliderNeedleWidth, d);
    MulDivCancel(SliderNeedleWidth, d);
    (value - min) * SliderNeedleWidth / d
  }

  /** The needle never gets shorter as the value grows. */
  lemma NeedleMonotone(v1: int, v2: int, min: int, max: int)
    requires min < max && min <= v1 <= v2 <= max
    ensures NeedleLength(v1, min, max) <= NeedleLength(v2, min, max)
  {
    DivMonotone((v1 - min) * SliderNeedleWidth, (v2 - min) * SliderNeedleWidth, max - min);
  }

  // ---------------------------------------------------------------------------
  // The 16-bit arithmetic as written
  // ---------------------------------------------------------------------------

  /** Two's-complement wrap-around of a 16-bit `int`. */
  function Wrap16(x: int): (w: int)
    ensures InInt16(w)
    ensures (w - x) % 0x1_0000 == 0
    ensures InInt16(x) ==> w == x
  {
    (x + 0x8000) % 0x1_0000 - 0x8000
  }

  /** C integer division, truncating toward zero. */
  function TruncDiv(a: int, b: int): (q: int)
    requires b != 0
    ensures a >= 0 && b > 0 ==> q == a / b
    ensures (a >= 0) != (b > 0) && a != 0 ==> q <= 0
  {
    var na, nb := if a >= 0 then a else -a, if b > 0 then b else -b;
    DivMonotone(0, na, nb);
    var q0 := na / nb;
    if (a >= 0) == (b > 0) then q0 else -q0
  }

  /**
    The new value as the source computes it: `value ± stepSize` in 16-bit
    arithmetic, then clamped against the one bound in the direction of travel.
  */
  function MoveAsWritten(s: Slider, stepSize: int, up: bool): (v: int)
    ensures InInt16(v) || v == s.min || v == s.max
    ensures up && InInt16(s.value + stepSize) ==> v == (if s.value + stepSize > s.max then s.max else s.value + stepSize)
    ensures !up && InInt16(s.value - stepSize) ==> v == (if s.value - stepSize < s.min then s.min else s.value - stepSize)
  {
    if up then
      var candidate := Wrap16(s.value + stepSize);
      if candidate > s.max then s.max else candidate
    else
      var candidate := Wrap16(s.value - stepSize);
      if candidate < s.min then s.min else candidate
  }

  /** When the sum fits in 16 bits the source's arithmetic is the modelled one. */
  lemma MoveAsWrittenAgrees(s: Slider, ev: ButtonEvent)
    requires Valid(s) && ev.ButtonAction? && ev.phase == Pushed && ev.button in {Up, Down}
    requires InInt16(s.value + s.step) && InInt16(s.value - s.step)
    ensures MoveAsWritten(s, StepSize(s.step, 1), ev.button == Up) == HandleSliderEvent(s, ev).slider.value
  {
  }

  /**
    On a slider 0..32767 with step 1000 at value 32000, pushing Up overflows
    `value + stepSize` to -32536, which passes the `> max` test and becomes
    the new value, below `min`.
  */
  lemma MoveAsWrittenLeavesRange()
    ensures var s := Slider(0, 32767, 1000, 32000, 0);
            Valid(s) && InInt16(s.min) && InInt16(s.max) && InInt16(s.step) &&
            MoveAsWritten(s, StepSize(s.step, 1), true) == -32536 < s.min &&
            HandleSliderEvent(s, ButtonAction(Pushed, Up)).slider.value == s.max
  {
  }

  /**
    The needle length as the source computes it: `max - min` in 16-bit
    arithmetic, the product and quotient in 32-bit `long`, the result cast to
    a byte.
  */
  function NeedleLengthAsWritten(value: int, min: int, max: int): (n: int)
    requires InInt16(value) && InInt16(min) && InInt16(max) && min < max && min <= value <= max
    ensures 0 <= n < 0x100
    ensures InInt16(max - min) ==> n == NeedleLength(value, min, max)
  {
    var range := Wrap16(max - min);
    assert range != 0;
    TruncDiv((value - min) * SliderNeedleWidth, range) % 0x100
  }

  /**
    On a slider -100..32700 at its maximum, `max - min` = 32800 wraps to
    -32736, the quotient is -77 and the byte cast gives a 179-pixel needle in
    a 77-pixel frame.
  */
  lemma NeedleLengthAsWrittenOverruns()
    ensures NeedleLengthAsWritten(32700, -100, 32700) == 179 > SliderNeedleWidth
    ensures NeedleLength(32700, -100, 32700) == SliderNeedleWidth
  {
  }
}

=== FILE: wrappers.dfy ===
/** A minimal optional-value type shared by the other modules. */
module Wrappers {

  /** `None` stands for the source's NULL pointers and "no value" returns. */
  datatype Option<+T> = None | Some(value: T)
}
